=== FILE: README.md ===
# Currency quotes: normalisation, store cycle and aggregation

A functional model of the logic behind a small currency-exchange API. The
service polls a provider for US-dollar quotes, stores one row per canonical
source and serves averages and per-source slippage. The model covers three
pieces:

- **Normalisation** (`fetchQuotes`). The provider returns an array of items. Each item's `casa` is lower-cased and looked
  up in a primary table, then in an alternative table. Between them the tables map seven spellings onto three source URLs.
  An item is kept only when both prices parse to positive numbers and its source has not been accepted yet. The loop stops
  at three quotes. A body that is not an array is an error. So is an item whose `casa` cannot be lower-cased: a `null`
  element, or a truthy non-string.
- **Store cycle** (`updateQuotesInDatabase`). The store is `map<string, Prices>` keyed by source URL. A failed fetch or
  an empty batch leaves it unchanged. Otherwise every quote is upserted, and the create and update branches write the
  same prices.
- **Aggregation** (`getQuotes`, `getAverage`, `getSlippage`):
  - `getQuotes` sorts by source ascending and has a distinct "no quotes yet" result.
  - `getAverage` is sum over count, with a 0/0/0 answer for the empty store.
  - `getSlippage` measures each row's difference and relative deviation against the unrounded averages.
  - Rounding is `Number.prototype.toFixed` read back with `parseFloat`. Section 21.1.3.3 of ECMA-262 defines it, and
    on exact reals it rounds half away from zero to d decimals (`Rounding.ToFixed`).

Modules: `Wrappers` (Option, Result), `Rounding`, `Sources` (the two tables
and the case-folded lookup), `Quotes` (the quote record and batch
invariants), `Scraper` (the item loop), `ScraperProperties` (an
independent reference definition of the loop and its properties), `Store`
(the upsert cycle), `SourceOrder` (string order and sorting) and `Controller`
(the three read endpoints).

`getSlippage`'s query has no `orderBy` (src/controllers/quoteController.js:85-91), so `Controller.GetSlippage` keeps the snapshot's order.

The bounds on summed rounded differences are written with `Controller.Times(n, e)`, n copies of e added up, rather than
the product n * e: the linear form keeps the arithmetic within the solver's reach, and `Controller.TimesIsProduct`
proves the two equal.

## Model

| member | source | states |
|---|---|---|
| Sources.Resolve | src/services/scraper.js:9-20 | a canonical URL comes back exactly when the lower-cased casa is one of the seven spellings of the two tables, and it is always one of the three canonical URLs |
| Sources.ResolveIgnoresCase | src/services/scraper.js:38 | two casa values that lower-case alike resolve to the same source |
| Sources.ResolveRecognisesSpellings | src/services/scraper.js:37-45 | a casa resolves iff it matches some known spelling letter by letter up to ASCII case |
| Sources.SpellingsPerSource | src/services/scraper.js:9-20 | oficial/ambito give the Ambito URL, blue/dolarhoy the DolarHoy URL, bolsa/cronista/ccl the one Cronista URL, whatever the letter case; unknown names resolve to nothing |
| Sources.ToLower | src/services/scraper.js:38 | the result has no ASCII capital letter and equals the input up to the case of its letters, position by position; together these fix every character of the result |
| Sources.ResolveAsWritten | src/services/scraper.js:39-44 | the lookup as written hits exactly when the lower-cased casa is one of the seven spellings or one of the inherited names "constructor" and "__proto__"; an own-property hit is a canonical URL, any other hit is the inherited member of that name |
| Sources.InheritedNameSlipsThrough | src/services/scraper.js:39-40 | casa "Constructor" reads the inherited `constructor` member as written, while the own-property lookup finds no source |
| Sources.ResolveAsWrittenAgrees | src/services/scraper.js:37-45 | for every casa whose lower case is not an Object.prototype member name, the lookup as written returns the same URL as Resolve |
| Scraper.SourceOf | src/services/scraper.js:36-45 | the lookup throws ItemTypeError exactly for a null item or a truthy non-string casa; a missing casa gives no source; a text casa gives what the corrected lookup Sources.Resolve gives, always a canonical URL (see "## Left out") |
| Scraper.Step | src/services/scraper.js:47-59 | one item fails exactly when its casa lookup throws; otherwise the batch only grows at the end, by at most one quote, and stays well formed |
| Scraper.Scan | src/services/scraper.js:35-63 | the loop yields a well-formed batch (distinct canonical sources, positive prices) of at most three quotes extending what it started with, or an ItemTypeError that some item raised |
| Scraper.FetchQuotes | src/services/scraper.js:30-68 | the error InvalidFormat comes back exactly when the body is not an array; a successful result is a well-formed batch of at most three quotes |
| Scraper.Fetch | src/services/scraper.js:22-79 | the error NetworkError comes back exactly when the request fails; a successful fetch is a well-formed batch |
| Scraper.FetchQuotesLoop | src/services/scraper.js:33-68 | the imperative loop with its own usedSources set computes the same result as the functional model |
| ScraperProperties.FetchQuotesMatchesReference | src/services/scraper.js:33-63 | with no throwing item, the output is the first three of: the priced, recognised items in input order, keeping the first per source |
| ScraperProperties.ScanMatchesReference | src/services/scraper.js:35-63 | the same equality for the loop resumed from any accepted prefix |
| ScraperProperties.FirstPerSourceDistinct | src/services/scraper.js:34 | the reference keeps each source at most once and never one already seen |
| ScraperProperties.FetchQuotesTakesEarliestValid | src/services/scraper.js:47-57 | every output quote is the quote of some item whose source had no valid earlier item, so the first valid occurrence wins |
| ScraperProperties.ScanTakesEarliestValid | src/services/scraper.js:47-57 | the same for the loop resumed from an accepted prefix |
| ScraperProperties.FetchQuotesStopsAtCap | src/services/scraper.js:60-62 | once three quotes are accepted, items after that point are never read: appending any items changes nothing |
| ScraperProperties.ScanStopsAtCap | src/services/scraper.js:60-62 | the same for the loop resumed from an accepted prefix |
| ScraperProperties.RejectedItemLeavesNoTrace | src/services/scraper.js:47-58 | an item that is unrecognised, badly priced or of an already used source changes nothing, so it does not mark its source as used |
| ScraperProperties.FetchQuotesThrowsUnlessCapped | src/services/scraper.js:37-38 | a throwing item fails the whole fetch unless three quotes were accepted before it |
| ScraperProperties.ScanThroughPrefix | src/services/scraper.js:35-63 | the loop over a concatenation is the loop over the second part resumed from the first part's result |
| ScraperProperties.InvalidFirstOccurrenceExample | src/services/scraper.js:47-58 | a "blue" item with a NaN buy price does not block the later valid "BLUE" item of the same source, while an unknown casa and an "oficial" item priced -5 are dropped: the output is the single DolarHoy quote |
| Store.UpsertQuote | src/jobs/updateQuotes.js:20-33 | an upsert of a quote leaves the table with the quote's prices at its source, whether the row existed (update) or not (create), and nothing else changed |
| Store.UpsertAll | src/jobs/updateQuotes.js:19-35 | after the batch, the keys are the old keys plus the batch's sources; keys outside the batch keep their prices; each batch key holds the prices of a quote of that source |
| Store.Cycle | src/jobs/updateQuotes.js:11-40 | a failed fetch or an empty batch leaves the store unchanged; otherwise the keys become the old keys plus the batch's sources, keys outside the batch keep their prices, and with distinct sources every batch source holds exactly its quote's prices |
| Store.RunCycle | src/jobs/updateQuotes.js:11-40 | any failed fetch (request failure, a body that is not an array, a throwing item) leaves the store unchanged; a run never removes a key and adds only canonical sources; every stored source the batch does not contain, canonical or not, keeps its prices; every fetched source holds exactly its quote's prices |
| Store.RunCyclePreservesPositiveTable | src/jobs/updateQuotes.js:11-40 | if every stored price is positive before a cycle, it is after it |
| Store.UpsertAllIsOverride | src/jobs/updateQuotes.js:19-35 | upserting a batch distributes over map override: earlier contents are overridden, never merged |
| Store.UpsertAllFromEmpty | src/jobs/updateQuotes.js:19-35 | upserting a batch is overriding the table with the batch's own table |
| Store.UpsertAllIdempotent | src/jobs/updateQuotes.js:19-35 | applying the same batch twice gives the same store as applying it once |
| Store.RunCycleIdempotent | src/jobs/updateQuotes.js:11-40 | two cycles over the same response give the same store as one |
| Store.UpsertAllOrderIndependent | src/jobs/updateQuotes.js:19-35 | for a batch with distinct sources, any permutation of the upserts gives the same store |
| Store.UpsertAllDependsOnElementsOnly | src/jobs/updateQuotes.js:19-35 | for a batch with distinct sources, the store depends only on which quotes are in the batch |
| SourceOrder.PrecedesTotal | src/controllers/quoteController.js:22-24 | any two sources are comparable in the ascending order |
| SourceOrder.PrecedesAntisymmetric | src/controllers/quoteController.js:22-24 | two sources that precede each other are equal |
| SourceOrder.PrecedesTransitive | src/controllers/quoteController.js:22-24 | the ascending order is transitive |
| SourceOrder.PrecedesReflexive | src/controllers/quoteController.js:22-24 | every source precedes itself |
| SourceOrder.InsertBySource | src/controllers/quoteController.js:22-24 | inserting into a sorted list keeps it sorted and adds exactly the one quote |
| SourceOrder.SortBySource | src/controllers/quoteController.js:15-25 | the result is sorted ascending by source and is a permutation of the rows |
| SourceOrder.SortedArrangementUnique | src/controllers/quoteController.js:22-24 | two sorted arrangements of the same rows with distinct sources are equal |
| Controller.GetQuotes | src/controllers/quoteController.js:13-34 | the "no quotes yet" answer comes back exactly when there are no rows; otherwise the rows are listed, each once, sorted ascending by source |
| Controller.GetQuotesEmptyExactlyWhenTableEmpty | src/controllers/quoteController.js:27-32 | the "no quotes yet" answer comes back exactly when the table is empty |
| Controller.GetQuotesIndependentOfReadOrder | src/controllers/quoteController.js:15-25 | whatever order the database hands the rows in, the listing is the same |
| Controller.MeanBetweenExtremes | src/controllers/quoteController.js:62-66 | the unrounded average lies between the smallest and largest price |
| Controller.MeanOfPositivesIsPositive | src/controllers/quoteController.js:65-66 | the average of positive prices is positive, so the slippage division is taken |
| Controller.DeviationsFromMeanSumToZero | src/controllers/quoteController.js:100-108 | the differences from the unrounded average sum to zero |
| Controller.GetAverage | src/controllers/quoteController.js:54-71 | sourceCount is the row count; the empty store gives 0/0/0; otherwise each average has two decimals and is within half a cent of sum/count |
| Controller.GetAverageOfTable | src/controllers/quoteController.js:47-61 | sourceCount is the number of stored sources, and the empty table gives 0/0/0 |
| Controller.GetAverageWithinPriceRange | src/controllers/quoteController.js:62-70 | each rounded average is within half a cent of the price range |
| Controller.GetSlippage | src/controllers/quoteController.js:93-125 | one entry per row, same order and same source; each rounded difference is within half a cent of the price minus the unrounded average; each slippage is toFixed(4) of (price - average) / average against the unrounded average, and 0 when that average is 0 |
| Controller.RelativeDeviation | src/controllers/quoteController.js:110-116 | against a non-zero average the result r satisfies average + r * average == price, so it is (price - average) / average; against a zero average it is 0; against a positive average it is non-negative exactly when the price is at least the average |
| Controller.EntryFor | src/controllers/quoteController.js:106-124 | the entry keeps the row's source; both differences are two-decimal values within half a cent of price minus average; both slippages are four-decimal values, 0 against a zero average and otherwise within half of 0.0001 of (price - average) / average |
| Controller.GetSlippageOfEmptyTable | src/controllers/quoteController.js:93-98 | the empty table gives an empty list |
| Controller.BuyDifferencesSumToZero | src/controllers/quoteController.js:100-122 | the unrounded buy differences sum to zero, and the rounded ones to within n half-cents of zero |
| Controller.SellDifferencesSumToZero | src/controllers/quoteController.js:101-123 | the unrounded sell differences sum to zero, and the rounded ones to within n half-cents of zero |
| Controller.RoundedSlippage | src/controllers/quoteController.js:110-121 | against a positive average, the slippage is (price - average) / average to within half of 0.0001, with the sign of the difference |
| Controller.BuySlippageOfPositiveTable | src/controllers/quoteController.js:107-120 | with positive prices, each buy slippage is toFixed(4) of the relative deviation from the average; it is non-negative when the price is at or above the average, non-positive when at or below |
| Controller.SellSlippageOfPositiveTable | src/controllers/quoteController.js:108-121 | with positive prices, each sell slippage is toFixed(4) of the relative deviation from the average; it is non-negative when the price is at or above the average, non-positive when at or below |
| Controller.ThreeSourceExample | src/controllers/quoteController.js:62-125 | buy prices 900, 1000, 1100 (sell 910, 1010, 1110) give averages 1000 and 1010 over 3 sources; the first and last rows have buy differences -100 and 100 and buy slippages -0.1 and 0.1 |
| Rounding.ToFixed | src/controllers/quoteController.js:69-70 | toFixed(d) read back is within half a unit of the d-th decimal of x, has at most d decimals, and never has the opposite sign of x (a small x can round to 0) |
| Rounding.ToFixedOdd | src/controllers/quoteController.js:120-123 | rounding -x gives minus the rounding of x |
| Rounding.ToFixedTieAwayFromZero | src/controllers/quoteController.js:120-123 | a value exactly halfway between two d-decimal numbers rounds away from zero, on either side of zero |
| Rounding.ToFixedKeepsGridValues | src/controllers/quoteController.js:69-70 | a value with at most d decimals is returned unchanged |
| Rounding.ToFixedIdempotent | src/controllers/quoteController.js:69-70 | rounding twice to d decimals is rounding once |
| Rounding.ToFixedMonotone | src/controllers/quoteController.js:120-123 | rounding never reverses the order of two values |

## Left out

- The HTTP request itself is not modelled: the axios GET, its 10 s timeout, its headers and the error-code logging. Its outcome is the `Scraper.Response` input.
- `parseFloat` is not modelled. Prices arrive already parsed, as `Option<real>`, with `None` standing for NaN.
- IEEE-754 arithmetic is not modelled. Sums, averages and differences are exact reals, so float rounding error, Infinity and the exponential form `toFixed` uses at 1e21 and above are left out.
- String.prototype.toLowerCase is modelled on ASCII letters only. No spelling in either table contains a letter that another Unicode character lower-cases to.
- A `casa` object that supplies its own `toLowerCase` method is left out. Such a value counts as `OtherTruthy`, which throws.
- The `node-cron` schedule and the initial fire-and-forget run are not modelled. Only the effect of one cycle is.
- `Promise.all` concurrency is not modelled: one upsert failing while others succeed, and overlapping cycles. The cycle is a sequential fold of upserts.
- The `updatedAt` timestamp is left out, along with HTTP status codes, JSON response shapes, 500 error responses and `console` logging.
- Controller.GetQuotes sorts by code-point order of the source strings. The database's collation is not modelled. For the three canonical URLs the two orders agree.
- Scraper.SourceOf uses the corrected lookup `Sources.Resolve`, not the plain-object read the code performs. An item whose casa lower-cases to "constructor" or "__proto__" (in any letter case) is therefore dropped by the model. The code instead takes the inherited `Object` or `Object.prototype` value as its source and, with valid prices, pushes a quote for it. `Scraper.Step`, `Scraper.Scan`, `Scraper.FetchQuotes` and `Scraper.FetchQuotesLoop` inherit this. See "## Findings"; `Sources.ResolveAsWrittenAgrees` shows the two lookups agree on every other casa.
- src/index.js is not part of this model, and neither are src/routes/quoteRoutes.js and src/db.js. They hold the Express bootstrap, the routing and the Prisma client.

## Findings

| source | as written | input that shows it | evidently intended | confidence | as-written member | corrected member |
|---|---|---|---|---|---|---|
| src/services/scraper.js:39-44 | `SOURCE_MAPPING[casaLower]` reads a property of a plain object literal, so names inherited from Object.prototype are found too | an item with casa "Constructor": it lower-cases to "constructor", which reads the inherited constructor function (truthy), so a function becomes the quote's source | only the tables' own spellings resolve; an unknown casa is skipped | high; not executed | Sources.ResolveAsWritten, Sources.InheritedNameSlipsThrough | Sources.Resolve, Sources.ResolveAsWrittenAgrees |

=== FILE: controller.dfy ===
/**
 * The read side: getQuotes, getAverage and getSlippage over a snapshot of
 * the quote table. A snapshot is the rows findMany returns, in the order it
 * returns them; only getQuotes asks the database for an order.
 */
module Controller {
  import opened Quotes
  import opened Rounding
  import SourceOrder
  import Store

  // ---------------------------------------------------------------------
  // Snapshots.
  // ---------------------------------------------------------------------

  /** rows lists every row of the table exactly once, in some order. */
  predicate IsSnapshot(rows: seq<Quote>, table: Store.Table) {
    && DistinctSources(rows)
    && SourcesOf(rows) == table.Keys
    && (forall q :: q in rows ==> table[q.source] == Store.PricesOf(q))
  }

  /** One row per stored source, so a snapshot is as long as the table is large. */
  lemma {:induction false} SnapshotLength(rows: seq<Quote>)
    requires DistinctSources(rows)
    ensures |SourcesOf(rows)| == |rows|
    decreases |rows|
  {
    if |rows| > 0 {
      var last := rows[|rows| - 1];
      var init := rows[..|rows| - 1];
      SnapshotLength(init);
      assert SourcesOf(rows) == SourcesOf(init) + {last.source} by {
        assert forall q :: q in rows <==> q in init || q == last;
      }
      assert last.source !in SourcesOf(init);
    }
  }

  // ---------------------------------------------------------------------
  // getQuotes.
  // ---------------------------------------------------------------------

  /** The response of getQuotes: the "no quotes yet" message, or the rows. */
  datatype QuoteListing = NoQuotesYet | Listing(quotes: seq<Quote>)

  function GetQuotes(rows: seq<Quote>): (r: QuoteListing)
    ensures r.NoQuotesYet? <==> |rows| == 0
    ensures r.Listing? ==> SourceOrder.SortedBySource(r.quotes)
    ensures r.Listing? ==> multiset(r.quotes) == multiset(rows)
  {
    var sorted := SourceOrder.SortBySource(rows);
    if |sorted| == 0 then NoQuotesYet else Listing(sorted)
  }

  /** The message variant is returned exactly when the table holds no quote. */
  lemma GetQuotesEmptyExactlyWhenTableEmpty(rows: seq<Quote>, table: Store.Table)
    requires IsSnapshot(rows, table)
    ensures GetQuotes(rows).NoQuotesYet? <==> table == map[]
  {
    SnapshotLength(rows);
    assert |table.Keys| == |table|;
  }

  /** Whatever order the database reads the rows in, the listing is the same. */
  lemma GetQuotesIndependentOfReadOrder(rows: seq<Quote>, rows': seq<Quote>, table: Store.Table)
    requires IsSnapshot(rows, table) && IsSnapshot(rows', table)
    ensures GetQuotes(rows) == GetQuotes(rows')
  {
    SnapshotsHaveSameRows(rows, rows', table);
    var a := SourceOrder.SortBySource(rows);
    var b := SourceOrder.SortBySource(rows');
    SortKeepsRows(rows);
    SortKeepsRows(rows');
    SourceOrder.SortedArrangementUnique(a, b);
  }

  lemma SnapshotsHaveSameRows(rows: seq<Quote>, rows': seq<Quote>, table: Store.Table)
    requires IsSnapshot(rows, table) && IsSnapshot(rows', table)
    ensures forall q :: q in rows <==> q in rows'
  {
    forall q | q in rows
      ensures q in rows'
    {
      assert q.source in SourcesOf(rows');
      var q' :| q' in rows' && q'.source == q.source;
      assert Store.PricesOf(q') == Store.PricesOf(q);
    }
    forall q | q in rows'
      ensures q in rows
    {
      assert q.source in SourcesOf(rows);
      var q' :| q' in rows && q'.source == q.source;
      assert Store.PricesOf(q') == Store.PricesOf(q);
    }
  }

  /** Sorting keeps the rows and their distinct sources. */
  lemma SortKeepsRows(rows: seq<Quote>)
    requires DistinctSources(rows)
    ensures forall q :: q in SourceOrder.SortBySource(rows) <==> q in rows
    ensures DistinctSources(SourceOrder.SortBySource(rows))
  {
    var s := SourceOrder.SortBySource(rows);
    forall q
      ensures q in s <==> q in rows
    {
      assert q in s <==> q in multiset(s);
      assert q in rows <==> q in multiset(rows);
    }
    forall i, j | 0 <= i < j < |s|
      ensures s[i].source != s[j].source
    {
      if s[i].source == s[j].source {
        assert s[i] in rows && s[j] in rows;
        Store.SameSourceSameQuote(rows, s[i], s[j]);
        SourceOrder.TwoIndicesCountTwice(s, i, j);
        var k :| 0 <= k < |rows| && rows[k] == s[i];
        SourceOrder.DistinctCountsOnce(rows, k);
        assert false;
      }
    }
  }

  // ---------------------------------------------------------------------
  // Sums and means.
  // ---------------------------------------------------------------------

  function BuyPrices(rows: seq<Quote>): (xs: seq<real>)
    ensures |xs| == |rows| && forall i :: 0 <= i < |rows| ==> xs[i] == rows[i].buyPrice
  {
    seq(|rows|, i requires 0 <= i < |rows| => rows[i].buyPrice)
  }

  function SellPrices(rows: seq<Quote>): (xs: seq<real>)
    ensures |xs| == |rows| && forall i :: 0 <= i < |rows| ==> xs[i] == rows[i].sellPrice
  {
    seq(|rows|, i requires 0 <= i < |rows| => rows[i].sellPrice)
  }

  /** `reduce((sum, x) => sum + x, 0)`: a left fold from zero. */
  function Sum(xs: seq<real>): real {
    if |xs| == 0 then 0.0 else Sum(xs[..|xs| - 1]) + xs[|xs| - 1]
  }

  function Mean(xs: seq<real>): real
    requires |xs| > 0
  {
    Sum(xs) / (|xs| as real)
  }

  function Min(xs: seq<real>): (m: real)
    requires |xs| > 0
    ensures m in xs
    ensures forall i :: 0 <= i < |xs| ==> m <= xs[i]
  {
    if |xs| == 1 then xs[0]
    else
      var m := Min(xs[1..]);
      assert forall i :: 1 <= i < |xs| ==> xs[i] == xs[1..][i - 1];
      if xs[0] <= m then xs[0] else m
  }

  function Max(xs: seq<real>): (m: real)
    requires |xs| > 0
    ensures m in xs
    ensures forall i :: 0 <= i < |xs| ==> xs[i] <= m
  {
    if |xs| == 1 then xs[0]
    else
      var m := Max(xs[1..]);
      assert forall i :: 1 <= i < |xs| ==> xs[i] == xs[1..][i - 1];
      if m <= xs[0] then xs[0] else m
  }

  /** n copies of e added up: n * e, kept linear for the solver. */
  function Times(n: nat, e: real): real {
    if n == 0 then 0.0 else Times(n - 1, e) + e
  }

  lemma {:induction false} TimesIsProduct(n: nat, e: real)
    ensures Times(n, e) == (n as real) * e
  {
    if n > 0 {
      TimesIsProduct(n - 1, e);
      assert (n as real) * e == ((n - 1) as real) * e + e;
    }
  }

  lemma {:induction false} SumBounds(xs: seq<real>, lo: real, hi: real)
    requires forall i :: 0 <= i < |xs| ==> lo <= xs[i] <= hi
    ensures Times(|xs|, lo) <= Sum(xs) <= Times(|xs|, hi)
    decreases |xs|
  {
    if |xs| > 0 {
      SumBounds(xs[..|xs| - 1], lo, hi);
    }
  }

  /** The unrounded average lies between the lowest and the highest price. */
  lemma MeanBetweenExtremes(xs: seq<real>)
    requires |xs| > 0
    ensures Min(xs) <= Mean(xs) <= Max(xs)
  {
    MeanWithin(xs, Min(xs), Max(xs));
  }

  lemma MeanWithin(xs: seq<real>, lo: real, hi: real)
    requires |xs| > 0
    requires forall i :: 0 <= i < |xs| ==> lo <= xs[i] <= hi
    ensures lo <= Mean(xs) <= hi
  {
    SumBounds(xs, lo, hi);
    TimesIsProduct(|xs|, lo);
    TimesIsProduct(|xs|, hi);
    DivideBounds(lo, Sum(xs), hi, |xs| as real);
  }

  lemma DivideBounds(lo: real, s: real, hi: real, n: real)
    requires n >= 1.0
    requires lo * n <= s <= hi * n
    ensures lo <= s / n <= hi
  {
  }

  /** The average of positive prices is positive, so the zero guard of getSlippage never fires on the table. */
  lemma MeanOfPositivesIsPositive(xs: seq<real>)
    requires |xs| > 0
    requires forall i :: 0 <= i < |xs| ==> xs[i] > 0.0
    ensures Mean(xs) > 0.0
  {
    MeanBetweenExtremes(xs);
  }

  /** Each value minus c, for every value of xs. */
  function Deviations(xs: seq<real>, c: real): (ds: seq<real>)
    ensures |ds| == |xs| && forall i :: 0 <= i < |xs| ==> ds[i] == xs[i] - c
  {
    seq(|xs|, i requires 0 <= i < |xs| => xs[i] - c)
  }

  lemma {:induction false} SumOfDeviations(xs: seq<real>, c: real)
    ensures Sum(Deviations(xs, c)) == Sum(xs) - Times(|xs|, c)
    decreases |xs|
  {
    if |xs| > 0 {
      var init := xs[..|xs| - 1];
      SumOfDeviations(init, c);
      assert Deviations(xs, c)[..|xs| - 1] == Deviations(init, c);
    }
  }

  /** The deviations from the unrounded average cancel out. */
  lemma DeviationsFromMeanSumToZero(xs: seq<real>)
    requires |xs| > 0
    ensures Sum(Deviations(xs, Mean(xs))) == 0.0
  {
    SumOfDeviations(xs, Mean(xs));
    TimesIsProduct(|xs|, Mean(xs));
    MultiplyMean(Sum(xs), |xs| as real);
  }

  lemma MultiplyMean(total: real, n: real)
    requires n >= 1.0
    ensures n * (total / n) == total
  {
  }

  lemma {:induction false} SumsStayClose(xs: seq<real>, ys: seq<real>, e: real)
    requires |xs| == |ys|
    requires forall i :: 0 <= i < |xs| ==> -e <= xs[i] - ys[i] <= e
    ensures -Times(|xs|, e) <= Sum(xs) - Sum(ys) <= Times(|xs|, e)
    decreases |xs|
  {
    if |xs| > 0 {
      SumsStayClose(xs[..|xs| - 1], ys[..|ys| - 1], e);
    }
  }

  // ---------------------------------------------------------------------
  // getAverage.
  // ---------------------------------------------------------------------

  /** The body of a getAverage response. */
  datatype AverageReport = AverageReport(averageBuyPrice: real, averageSellPrice: real, sourceCount: nat)

  function GetAverage(rows: seq<Quote>): (r: AverageReport)
    ensures r.sourceCount == |rows|
    ensures |rows| == 0 ==> r.averageBuyPrice == 0.0 && r.averageSellPrice == 0.0
    ensures |rows| > 0 ==> OnGrid(r.averageBuyPrice, 2) && OnGrid(r.averageSellPrice, 2)
    ensures |rows| > 0 ==> Mean(BuyPrices(rows)) - HalfUnit(2) <= r.averageBuyPrice <= Mean(BuyPrices(rows)) + HalfUnit(2)
    ensures |rows| > 0 ==> Mean(SellPrices(rows)) - HalfUnit(2) <= r.averageSellPrice <= Mean(SellPrices(rows)) + HalfUnit(2)
  {
    if |rows| == 0 then AverageReport(0.0, 0.0, 0)
    else
      AverageReport(ToFixed(Mean(BuyPrices(rows)), 2), ToFixed(Mean(SellPrices(rows)), 2), |rows|)
  }

  /** Over a snapshot, sourceCount is the number of stored sources and the empty table reports zeros. */
  lemma GetAverageOfTable(rows: seq<Quote>, table: Store.Table)
    requires IsSnapshot(rows, table)
    ensures GetAverage(rows).sourceCount == |table|
    ensures table == map[] ==> GetAverage(rows) == AverageReport(0.0, 0.0, 0)
  {
    SnapshotLength(rows);
    assert |table.Keys| == |table|;
  }

  /** The rounded averages stay within the range of the stored prices, up to rounding. */
  lemma GetAverageWithinPriceRange(rows: seq<Quote>)
    requires |rows| > 0
    ensures Min(BuyPrices(rows)) - HalfUnit(2) <= GetAverage(rows).averageBuyPrice <= Max(BuyPrices(rows)) + HalfUnit(2)
    ensures Min(SellPrices(rows)) - HalfUnit(2) <= GetAverage(rows).averageSellPrice <= Max(SellPrices(rows)) + HalfUnit(2)
  {
    MeanBetweenExtremes(BuyPrices(rows));
    MeanBetweenExtremes(SellPrices(rows));
  }

  // ---------------------------------------------------------------------
  // getSlippage.
  // ---------------------------------------------------------------------

  /** One element of the getSlippage response. */
  datatype SlippageEntry = SlippageEntry(
    source: string,
    buyPriceSlippage: real,
    sellPriceSlippage: real,
    buyPriceDifference: real,
    sellPriceDifference: real)

  /** The relative deviation of price from average, 0 when the average is 0. */
  function RelativeDeviation(price: real, average: real): (r: real)
    ensures average != 0.0 ==> average + r * average == price
    ensures average == 0.0 ==> r == 0.0
    ensures average > 0.0 ==> (r >= 0.0 <==> price >= average)
  {
    if average != 0.0 then (price - average) / average else 0.0
  }

  /** The entry of one row against the two unrounded averages. */
  function EntryFor(q: Quote, averageBuy: real, averageSell: real): (e: SlippageEntry)
    ensures e.source == q.source
    ensures OnGrid(e.buyPriceDifference, 2) && OnGrid(e.sellPriceDifference, 2)
    ensures OnGrid(e.buyPriceSlippage, 4) && OnGrid(e.sellPriceSlippage, 4)
    ensures q.buyPrice - averageBuy - HalfUnit(2) <= e.buyPriceDifference <= q.buyPrice - averageBuy + HalfUnit(2)
    ensures q.sellPrice - averageSell - HalfUnit(2) <= e.sellPriceDifference <= q.sellPrice - averageSell + HalfUnit(2)
    ensures averageBuy == 0.0 ==> e.buyPriceSlippage == 0.0
    ensures averageSell == 0.0 ==> e.sellPriceSlippage == 0.0
    ensures averageBuy != 0.0 ==>
      var exact := (q.buyPrice - averageBuy) / averageBuy;
      exact - HalfUnit(4) <= e.buyPriceSlippage <= exact + HalfUnit(4)
    ensures averageSell != 0.0 ==>
      var exact := (q.sellPrice - averageSell) / averageSell;
      exact - HalfUnit(4) <= e.sellPriceSlippage <= exact + HalfUnit(4)
  {
    SlippageEntry(
      q.source,
      ToFixed(RelativeDeviation(q.buyPrice, averageBuy), 4),
      ToFixed(RelativeDeviation(q.sellPrice, averageSell), 4),
      ToFixed(q.buyPrice - averageBuy, 2),
      ToFixed(q.sellPrice - averageSell, 2))
  }

  /**
   * One entry per row, in the snapshot's own order, with differences and
   * slippages measured against the UNROUNDED averages.
   */
  function GetSlippage(rows: seq<Quote>): (r: seq<SlippageEntry>)
    ensures |r| == |rows|
    ensures forall i :: 0 <= i < |rows| ==> r[i].source == rows[i].source
    ensures forall i :: 0 <= i < |rows| ==>
      var d := rows[i].buyPrice - Mean(BuyPrices(rows));
      d - HalfUnit(2) <= r[i].buyPriceDifference <= d + HalfUnit(2)
    ensures forall i :: 0 <= i < |rows| ==>
      var d := rows[i].sellPrice - Mean(SellPrices(rows));
      d - HalfUnit(2) <= r[i].sellPriceDifference <= d + HalfUnit(2)
    ensures forall i :: 0 <= i < |rows| ==>
      var average := Mean(BuyPrices(rows));
      && (average == 0.0 ==> r[i].buyPriceSlippage == 0.0)
      && (average != 0.0 ==> r[i].buyPriceSlippage == ToFixed((rows[i].buyPrice - average) / average, 4))
    ensures forall i :: 0 <= i < |rows| ==>
      var average := Mean(SellPrices(rows));
      && (average == 0.0 ==> r[i].sellPriceSlippage == 0.0)
      && (average != 0.0 ==> r[i].sellPriceSlippage == ToFixed((rows[i].sellPrice - average) / average, 4))
  {
    if |rows| == 0 then []
    else
      var averageBuy := Mean(BuyPrices(rows));
      var averageSell := Mean(SellPrices(rows));
      seq(|rows|, i requires 0 <= i < |rows| => EntryFor(rows[i], averageBuy, averageSell))
  }

  /** The empty table yields an empty slippage list. */
  lemma GetSlippageOfEmptyTable(rows: seq<Quote>, table: Store.Table)
    requires IsSnapshot(rows, table)
    requires table == map[]
    ensures GetSlippage(rows) == []
  {
    SnapshotLength(rows);
    assert |table.Keys| == |table|;
  }

  /** The rounded differences of one side, in snapshot order. */
  function BuyDifferences(entries: seq<SlippageEntry>): (ds: seq<real>)
    ensures |ds| == |entries| && forall i :: 0 <= i < |entries| ==> ds[i] == entries[i].buyPriceDifference
  {
    seq(|entries|, i requires 0 <= i < |entries| => entries[i].buyPriceDifference)
  }

  function SellDifferences(entries: seq<SlippageEntry>): (ds: seq<real>)
    ensures |ds| == |entries| && forall i :: 0 <= i < |entries| ==> ds[i] == entries[i].sellPriceDifference
  {
    seq(|entries|, i requires 0 <= i < |entries| => entries[i].sellPriceDifference)
  }

  lemma RoundedDeviationsNearZero(rounded: seq<real>, xs: seq<real>, e: real)
    requires |xs| > 0 && |rounded| == |xs|
    requires forall i :: 0 <= i < |xs| ==> -e <= rounded[i] - Deviations(xs, Mean(xs))[i] <= e
    ensures -Times(|xs|, e) <= Sum(rounded) <= Times(|xs|, e)
  {
    var exact := Deviations(xs, Mean(xs));
    assert Sum(exact) == 0.0 by {
      DeviationsFromMeanSumToZero(xs);
    }
    assert -Times(|xs|, e) <= Sum(rounded) - Sum(exact) <= Times(|xs|, e) by {
      SumsStayClose(rounded, exact, e);
    }
  }

  /**
   * The differences cancel out: exactly before rounding, and within half a
   * cent per source after it.
   */
  lemma BuyDifferencesSumToZero(rows: seq<Quote>)
    requires |rows| > 0
    ensures Sum(Deviations(BuyPrices(rows), Mean(BuyPrices(rows)))) == 0.0
    ensures -Times(|rows|, HalfUnit(2)) <= Sum(BuyDifferences(GetSlippage(rows))) <= Times(|rows|, HalfUnit(2))
  {
    DeviationsFromMeanSumToZero(BuyPrices(rows));
    BuyDifferencesClose(rows, BuyDifferences(GetSlippage(rows)), BuyPrices(rows));
  }

  lemma BuyDifferencesClose(rows: seq<Quote>, rounded: seq<real>, prices: seq<real>)
    requires |rows| > 0
    requires rounded == BuyDifferences(GetSlippage(rows)) && prices == BuyPrices(rows)
    ensures -Times(|rows|, HalfUnit(2)) <= Sum(rounded) <= Times(|rows|, HalfUnit(2))
  {
    var entries := GetSlippage(rows);
    var exact := Deviations(prices, Mean(prices));
    forall i | 0 <= i < |prices|
      ensures -HalfUnit(2) <= rounded[i] - exact[i] <= HalfUnit(2)
    {
      assert rounded[i] == entries[i].buyPriceDifference;
      assert exact[i] == rows[i].buyPrice - Mean(BuyPrices(rows));
    }
    RoundedDeviationsNearZero(rounded, prices, HalfUnit(2));
    assert |prices| == |rows|;
  }


  lemma SellDifferencesSumToZero(rows: seq<Quote>)
    requires |rows| > 0
    ensures Sum(Deviations(SellPrices(rows), Mean(SellPrices(rows)))) == 0.0
    ensures -Times(|rows|, HalfUnit(2)) <= Sum(SellDifferences(GetSlippage(rows))) <= Times(|rows|, HalfUnit(2))
  {
    DeviationsFromMeanSumToZero(SellPrices(rows));
    SellDifferencesClose(rows, SellDifferences(GetSlippage(rows)), SellPrices(rows));
  }

  lemma SellDifferencesClose(rows: seq<Quote>, rounded: seq<real>, prices: seq<real>)
    requires |rows| > 0
    requires rounded == SellDifferences(GetSlippage(rows)) && prices == SellPrices(rows)
    ensures -Times(|rows|, HalfUnit(2)) <= Sum(rounded) <= Times(|rows|, HalfUnit(2))
  {
    var entries := GetSlippage(rows);
    var exact := Deviations(prices, Mean(prices));
    forall i | 0 <= i < |prices|
      ensures -HalfUnit(2) <= rounded[i] - exact[i] <= HalfUnit(2)
    {
      assert rounded[i] == entries[i].sellPriceDifference;
      assert exact[i] == rows[i].sellPrice - Mean(SellPrices(rows));
    }
    RoundedDeviationsNearZero(rounded, prices, HalfUnit(2));
    assert |prices| == |rows|;
  }


  /** Against a positive average, the rounded slippage is the relative deviation to four decimals and keeps its sign. */
  lemma RoundedSlippage(price: real, average: real)
    requires average > 0.0
    ensures var s := ToFixed(RelativeDeviation(price, average), 4);
      var exact := (price - average) / average;
      && exact - HalfUnit(4) <= s <= exact + HalfUnit(4)
      && (price >= average ==> s >= 0.0)
      && (price <= average ==> s <= 0.0)
  {
    var exact := (price - average) / average;
    assert RelativeDeviation(price, average) == exact;
    if price >= average {
      assert exact >= 0.0;
    } else {
      assert exact <= 0.0;
    }
  }

  /**
   * On a table of positive prices the zero guard never fires: each buy
   * slippage is the relative deviation from the average, rounded, with the
   * sign of the difference.
   */
  lemma BuySlippageOfPositiveTable(rows: seq<Quote>, i: nat)
    requires i < |rows|
    requires forall q :: q in rows ==> HasPositivePrices(q)
    ensures Mean(BuyPrices(rows)) > 0.0
    ensures GetSlippage(rows)[i].buyPriceSlippage
         == ToFixed((rows[i].buyPrice - Mean(BuyPrices(rows))) / Mean(BuyPrices(rows)), 4)
    ensures rows[i].buyPrice >= Mean(BuyPrices(rows)) ==> GetSlippage(rows)[i].buyPriceSlippage >= 0.0
    ensures rows[i].buyPrice <= Mean(BuyPrices(rows)) ==> GetSlippage(rows)[i].buyPriceSlippage <= 0.0
  {
    assert forall j :: 0 <= j < |rows| ==> rows[j] in rows;
    MeanOfPositivesIsPositive(BuyPrices(rows));
    RoundedSlippage(rows[i].buyPrice, Mean(BuyPrices(rows)));
  }

  lemma SellSlippageOfPositiveTable(rows: seq<Quote>, i: nat)
    requires i < |rows|
    requires forall q :: q in rows ==> HasPositivePrices(q)
    ensures Mean(SellPrices(rows)) > 0.0
    ensures GetSlippage(rows)[i].sellPriceSlippage
         == ToFixed((rows[i].sellPrice - Mean(SellPrices(rows))) / Mean(SellPrices(rows)), 4)
    ensures rows[i].sellPrice >= Mean(SellPrices(rows)) ==> GetSlippage(rows)[i].sellPriceSlippage >= 0.0
    ensures rows[i].sellPrice <= Mean(SellPrices(rows)) ==> GetSlippage(rows)[i].sellPriceSlippage <= 0.0
  {
    assert forall j :: 0 <= j < |rows| ==> rows[j] in rows;
    MeanOfPositivesIsPositive(SellPrices(rows));
    RoundedSlippage(rows[i].sellPrice, Mean(SellPrices(rows)));
  }

  /** Three sources at 900/910, 1000/1010 and 1100/1110. */
  lemma ThreeSourceExample()
    ensures var rows := [Quote("A", 900.0, 910.0), Quote("B", 1000.0, 1010.0), Quote("C", 1100.0, 1110.0)];
      && GetAverage(rows) == AverageReport(1000.0, 1010.0, 3)
      && GetSlippage(rows)[0].buyPriceSlippage == -0.1
      && GetSlippage(rows)[0].buyPriceDifference == -100.0
      && GetSlippage(rows)[2].buyPriceSlippage == 0.1
      && GetSlippage(rows)[2].buyPriceDifference == 100.0
  {
    var rows := [Quote("A", 900.0, 910.0), Quote("B", 1000.0, 1010.0), Quote("C", 1100.0, 1110.0)];
    assert Pow10(2) == 100 && Pow10(4) == 10000;
    assert BuyPrices(rows) == [900.0, 1000.0, 1100.0];
    assert SellPrices(rows) == [910.0, 1010.0, 1110.0];
    SumOfThree(900.0, 1000.0, 1100.0);
    SumOfThree(910.0, 1010.0, 1110.0);
    assert Mean(BuyPrices(rows)) == 1000.0;
    assert Mean(SellPrices(rows)) == 1010.0;
    ToFixedKeepsGridValues(1000.0, 2);
    ToFixedKeepsGridValues(1010.0, 2);
    ToFixedKeepsGridValues(-100.0, 2);
    ToFixedKeepsGridValues(100.0, 2);
    ToFixedKeepsGridValues(-0.1, 4);
    ToFixedKeepsGridValues(0.1, 4);
  }

  lemma SumOfThree(a: real, b: real, c: real)
    ensures Sum([a, b, c]) == a + b + c
  {
    assert [a][..0] == [];
    assert Sum([a]) == a;
    assert [a, b][..1] == [a];
    assert Sum([a, b]) == a + b;
    assert [a, b, c][..2] == [a, b];
  }
}

=== FILE: quotes.dfy ===
/** The quote record shared by the fetcher, the store and the controller. */
module Quotes {
  import Sources

  /** One source's prices: `{ source, buy_price, sell_price }`. */
  datatype Quote = Quote(source: string, buyPrice: real, sellPrice: real)

  function SourcesOf(qs: seq<Quote>): set<string> {
    set q | q in qs :: q.source
  }

  predicate DistinctSources(qs: seq<Quote>) {
    forall i, j :: 0 <= i < j < |qs| ==> qs[i].source != qs[j].source
  }

  predicate HasPositivePrices(q: Quote) {
    q.buyPrice > 0.0 && q.sellPrice > 0.0
  }

  /** What every batch the fetcher accepts satisfies. */
  predicate WellFormedBatch(qs: seq<Quote>) {
    && DistinctSources(qs)
    && (forall q :: q in qs ==> q.source in Sources.CanonicalSources)
    && (forall q :: q in qs ==> HasPositivePrices(q))
  }
}

=== FILE: rounding.dfy ===
/**
 * Number.prototype.toFixed followed by parseFloat, on exact reals.
 *
 * Section 21.1.3.3 of ECMA-262 takes the magnitude of a negative number,
 * picks the integer n for which n / 10^d is closest to it (the larger n on a
 * tie) and puts the sign back: rounding half away from zero to d decimals.
 */
module Rounding {

  function Pow10(d: nat): (p: nat)
    ensures p >= 1
  {
    if d == 0 then 1 else 10 * Pow10(d - 1)
  }

  /** 10^d as a real number. */
  function Unit(d: nat): (u: real)
    ensures u >= 1.0
  {
    Pow10(d) as real
  }

  /** x expressed in units of the d-th decimal place. */
  function Scale(x: real, d: nat): real {
    x * Unit(d)
  }

  /** The greatest integer not above x. */
  function Floor(x: real): (n: int)
    ensures n as real <= x < n as real + 1.0
  {
    x.Floor
  }

  /** Half of one unit in the d-th decimal place: the largest error toFixed(d) makes. */
  function HalfUnit(d: nat): (h: real)
    ensures h > 0.0
  {
    0.5 / Unit(d)
  }

  /** True when x has at most d decimals: x is n / 10^d for an integer n. */
  predicate OnGrid(x: real, d: nat) {
    Floor(Scale(x, d)) as real == Scale(x, d)
  }

  /** The non-negative magnitude m rounded to d decimals, ties going to the larger value. */
  function RoundMagnitude(m: real, d: nat): (r: real)
    requires m >= 0.0
  {
    (Floor(Scale(m, d) + 0.5) as real) / Unit(d)
  }

  /** x.toFixed(d) read back as a number: round half away from zero to d decimals. */
  function ToFixed(x: real, d: nat): (r: real)
    ensures x - HalfUnit(d) <= r <= x + HalfUnit(d)
    ensures OnGrid(r, d)
    ensures 0.0 <= x ==> 0.0 <= r
    ensures x <= 0.0 ==> r <= 0.0
  {
    MagnitudeFacts(if x < 0.0 then -x else x, d);
    if x < 0.0 then -RoundMagnitude(-x, d) else RoundMagnitude(x, d)
  }

  lemma MagnitudeFacts(m: real, d: nat)
    requires m >= 0.0
    ensures m - HalfUnit(d) <= RoundMagnitude(m, d) <= m + HalfUnit(d)
    ensures 0.0 <= RoundMagnitude(m, d)
    ensures OnGrid(RoundMagnitude(m, d), d)
    ensures OnGrid(-RoundMagnitude(m, d), d)
  {
    var n := Floor(Scale(m, d) + 0.5);
    ScaleBounds(m, n as real, Unit(d));
    IntegerOverUnitIsOnGrid(n, d);
    IntegerOverUnitIsOnGrid(-n, d);
    assert -((n as real) / Unit(d)) == ((-n) as real) / Unit(d);
  }

  lemma IntegerOverUnitIsOnGrid(n: int, d: nat)
    ensures OnGrid((n as real) / Unit(d), d)
  {
    assert Scale((n as real) / Unit(d), d) == n as real;
  }

  /** Dividing m*p - 1/2 < v <= m*p + 1/2 by p > 0. */
  lemma ScaleBounds(m: real, v: real, p: real)
    requires p >= 1.0
    requires m * p - 0.5 < v <= m * p + 0.5
    ensures m - 0.5 / p <= v / p <= m + 0.5 / p
  {
  }

  /** toFixed commutes with negation: the sign is put back after rounding the magnitude. */
  lemma ToFixedOdd(x: real, d: nat)
    ensures ToFixed(-x, d) == -ToFixed(x, d)
  {
    if x == 0.0 {
      assert Floor(Scale(0.0, d) + 0.5) == 0;
    }
  }

  /** A tie in the d-th decimal place is broken away from zero, on both sides of zero. */
  lemma {:induction false} ToFixedTieAwayFromZero(x: real, d: nat, n: nat)
    requires Scale(x, d) == n as real + 0.5
    ensures ToFixed(x, d) == ((n + 1) as real) / Unit(d)
    ensures ToFixed(-x, d) == -(((n + 1) as real) / Unit(d))
  {
    assert x >= 0.0;
    assert Floor(Scale(x, d) + 0.5) == n + 1;
    ToFixedOdd(x, d);
  }

  /** A value that already has at most d decimals is left as it is. */
  lemma ToFixedKeepsGridValues(x: real, d: nat)
    requires OnGrid(x, d)
    ensures ToFixed(x, d) == x
  {
    var k := Floor(Scale(x, d));
    if x < 0.0 {
      assert Scale(-x, d) == -(k as real);
      assert Floor(Scale(-x, d) + 0.5) == -k;
      assert RoundMagnitude(-x, d) == ((-k) as real) / Unit(d) == -x;
    } else {
      assert Floor(Scale(x, d) + 0.5) == k;
      assert RoundMagnitude(x, d) == (k as real) / Unit(d) == x;
    }
  }

  /** Rounding twice to the same number of decimals is rounding once. */
  lemma ToFixedIdempotent(x: real, d: nat)
    ensures ToFixed(ToFixed(x, d), d) == ToFixed(x, d)
  {
    ToFixedKeepsGridValues(ToFixed(x, d), d);
  }

  /** toFixed never reverses the order of two numbers. */
  lemma ToFixedMonotone(x: real, y: real, d: nat)
    requires x <= y
    ensures ToFixed(x, d) <= ToFixed(y, d)
  {
    if 0.0 <= x {
      RoundMagnitudeMonotone(x, y, d);
    } else if y < 0.0 {
      RoundMagnitudeMonotone(-y, -x, d);
    }
  }

  lemma RoundMagnitudeMonotone(a: real, b: real, d: nat)
    requires 0.0 <= a <= b
    ensures RoundMagnitude(a, d) <= RoundMagnitude(b, d)
  {
    assert Scale(a, d) <= Scale(b, d);
    FloorMonotone(Scale(a, d) + 0.5, Scale(b, d) + 0.5);
  }

  lemma FloorMonotone(a: real, b: real)
    requires a <= b
    ensures Floor(a) <= Floor(b)
  {
  }
}

=== FILE: scraper.dfy ===
/**
 * The item loop of fetchQuotes: map each provider item to a canonical
 * source, keep items whose two prices are positive numbers, keep the first
 * accepted item per source and stop once three quotes are accepted.
 *
 * The HTTP request is not modelled: its outcome is the Response input.
 */
module Scraper {
  import opened Wrappers
  import opened Quotes
  import Sources

  /**
   * The `casa` field of one provider item, as JavaScript sees it: absent or
   * falsy (undefined, null, false, 0), a string, or some other truthy value,
   * which has no toLowerCase method.
   */
  datatype CasaField = Missing | Text(text: string) | OtherTruthy

  /**
   * One element of the provider's array. The prices are parseFloat of
   * `compra` and `venta`, with None standing for NaN. A null element has no
   * properties to read.
   */
  datatype RawItem = Item(casa: CasaField, compra: Option<real>, venta: Option<real>) | NullItem

  /** The parsed response body: an array of items, or anything else (including null). */
  datatype Body = JsonArray(items: seq<RawItem>) | NotAnArray

  /** The outcome of the GET request: a body, or a network error or timeout. */
  datatype Response = Delivered(body: Body) | RequestFailed

  /** Why fetchQuotes throws. */
  datatype FetchError =
    | NetworkError    // the request failed or timed out
    | InvalidFormat   // the body is not an array
    | ItemTypeError   // reading `casa` or calling toLowerCase on it threw a TypeError

  /** The canonical source of an item, None when it has none, or the TypeError the lookup throws. */
  function SourceOf(item: RawItem): (r: Result<Option<string>, FetchError>)
    ensures r.Failure? <==> item.NullItem? || item.casa.OtherTruthy?
    ensures r.Failure? ==> r.error == ItemTypeError
    ensures item.Item? && item.casa.Missing? ==> r == Success(None)
    ensures item.Item? && item.casa.Text? ==> r == Success(Sources.Resolve(item.casa.text))
    ensures r.Success? && r.value.Some? ==> r.value.value in Sources.CanonicalSources
  {
    match item
    case NullItem => Failure(ItemTypeError)
    case Item(casa, _, _) =>
      match casa
      case Missing => Success(None)
      case OtherTruthy => Failure(ItemTypeError)
      // The empty string is falsy, but it is in neither table either.
      case Text(s) => Success(Sources.Resolve(s))
  }

  predicate Throws(item: RawItem) {
    SourceOf(item).Failure?
  }

  /** Both prices parsed to numbers (not NaN) and are positive. */
  predicate PricesValid(item: RawItem) {
    && item.Item?
    && item.compra.Some? && item.venta.Some?
    && item.compra.value > 0.0 && item.venta.value > 0.0
  }

  /** One iteration of the loop, before the cap check. */
  function Step(item: RawItem, quotes: seq<Quote>): (r: Result<seq<Quote>, FetchError>)
    requires WellFormedBatch(quotes)
    ensures r.Failure? <==> Throws(item)
    ensures r.Success? ==> WellFormedBatch(r.value) && quotes <= r.value && |r.value| <= |quotes| + 1
  {
    match SourceOf(item)
    case Failure(e) => Failure(e)
    case Success(None) => Success(quotes)
    case Success(Some(url)) =>
      if url !in SourcesOf(quotes) && PricesValid(item) then
        var q := Quote(url, item.compra.value, item.venta.value);
        assert forall i :: 0 <= i < |quotes| ==> quotes[i] in quotes;
        Success(quotes + [q])
      else
        Success(quotes)
  }

  /** The loop from the current item on, with `quotes` accepted so far. */
  function Scan(items: seq<RawItem>, quotes: seq<Quote>): (r: Result<seq<Quote>, FetchError>)
    requires WellFormedBatch(quotes) && |quotes| < Sources.ExpectedSources
    ensures r.Success? ==> WellFormedBatch(r.value) && quotes <= r.value
    ensures r.Success? ==> |r.value| <= Sources.ExpectedSources
    ensures r.Failure? ==> r.error == ItemTypeError && exists i :: 0 <= i < |items| && Throws(items[i])
    decreases |items|
  {
    if |items| == 0 then Success(quotes)
    else
      match Step(items[0], quotes)
      case Failure(e) => Failure(e)
      case Success(next) =>
        if |next| == Sources.ExpectedSources then Success(next)
        else
          var r := Scan(items[1..], next);
          assert r.Failure? ==> exists i :: 1 <= i < |items| && Throws(items[i]);
          r
  }

  /** The accepted quotes of a response body, or the error fetchQuotes throws. */
  function FetchQuotes(body: Body): (r: Result<seq<Quote>, FetchError>)
    ensures r.Success? ==> WellFormedBatch(r.value) && |r.value| <= Sources.ExpectedSources
    ensures r == Failure(InvalidFormat) <==> body.NotAnArray?
  {
    match body
    case NotAnArray => Failure(InvalidFormat)
    case JsonArray(items) => Scan(items, [])
  }

  /** fetchQuotes as a whole: the request's failure propagates as an error. */
  function Fetch(response: Response): (r: Result<seq<Quote>, FetchError>)
    ensures r.Success? ==> WellFormedBatch(r.value) && |r.value| <= Sources.ExpectedSources
    ensures r == Failure(NetworkError) <==> response.RequestFailed?
  {
    match response
    case RequestFailed => Failure(NetworkError)
    case Delivered(body) => FetchQuotes(body)
  }

  /**
   * The loop as the source writes it, with its own `usedSources` set that
   * grows only when an item is accepted.
   */
  method FetchQuotesLoop(body: Body) returns (r: Result<seq<Quote>, FetchError>)
    ensures r == FetchQuotes(body)
  {
    if body.NotAnArray? {
      return Failure(InvalidFormat);
    }
    var items := body.items;
    var quotes: seq<Quote> := [];
    var usedSources: set<string> := {};
    var i := 0;
    while i < |items|
      invariant 0 <= i <= |items|
      invariant WellFormedBatch(quotes) && |quotes| < Sources.ExpectedSources
      invariant usedSources == SourcesOf(quotes)
      invariant Scan(items[i..], quotes) == Scan(items, [])
    {
      var item := items[i];
      assert items[i..][0] == item && items[i..][1..] == items[i + 1..];
      var sourceUrl: Option<string> := None;
      if item.NullItem? {
        return Failure(ItemTypeError);
      }
      match item.casa {
        case Missing =>
        case OtherTruthy =>
          return Failure(ItemTypeError);
        case Text(s) =>
          sourceUrl := Sources.Resolve(s);
      }
      if sourceUrl.Some? && sourceUrl.value !in usedSources {
        if item.compra.Some? && item.venta.Some? && item.compra.value > 0.0 && item.venta.value > 0.0 {
          quotes := quotes + [Quote(sourceUrl.value, item.compra.value, item.venta.value)];
          usedSources := usedSources + {sourceUrl.value};
        }
      }
      if |quotes| == Sources.ExpectedSources {
        return Success(quotes);
      }
      i := i + 1;
    }
    return Success(quotes);
  }
}

=== FILE: scraper_properties.dfy ===
/**
 * What fetchQuotes promises about the batch it returns, stated against an
 * independent reference: keep the valid items, keep the first one per
 * source, take at most three.
 */
module ScraperProperties {
  import opened Wrappers
  import opened Quotes
  import opened Scraper
  import Sources

  /** The quote an item would contribute if its source were still free. */
  function Candidate(item: RawItem): Option<Quote> {
    match SourceOf(item)
    case Success(Some(url)) =>
      if PricesValid(item) then Some(Quote(url, item.compra.value, item.venta.value)) else None
    case _ => None
  }

  /** The quotes of all valid items, in provider order. */
  function Candidates(items: seq<RawItem>): seq<Quote> {
    if |items| == 0 then []
    else
      match Candidate(items[0])
      case Some(q) => [q] + Candidates(items[1..])
      case None => Candidates(items[1..])
  }

  /** The first quote of each source not in `seen`, in order. */
  function FirstPerSource(qs: seq<Quote>, seen: set<string>): seq<Quote> {
    if |qs| == 0 then []
    else if qs[0].source in seen then FirstPerSource(qs[1..], seen)
    else [qs[0]] + FirstPerSource(qs[1..], seen + {qs[0].source})
  }

  function Take(qs: seq<Quote>, n: nat): seq<Quote> {
    if |qs| <= n then qs else qs[..n]
  }

  /** The reference batch: first valid quote per source, at most three of them. */
  function Expected(items: seq<RawItem>): seq<Quote> {
    Take(FirstPerSource(Candidates(items), {}), Sources.ExpectedSources)
  }

  // ---------------------------------------------------------------------
  // The loop against the reference.
  // ---------------------------------------------------------------------

  lemma {:induction false} ScanMatchesReference(items: seq<RawItem>, acc: seq<Quote>)
    requires WellFormedBatch(acc) && |acc| < Sources.ExpectedSources
    requires forall i :: 0 <= i < |items| ==> !Throws(items[i])
    ensures Scan(items, acc)
         == Success(Take(acc + FirstPerSource(Candidates(items), SourcesOf(acc)), Sources.ExpectedSources))
    decreases |items|
  {
    if |items| == 0 {
      assert Candidates(items) == [];
      assert acc + [] == acc;
    } else {
      var x := items[0];
      var rest := items[1..];
      assert forall i :: 0 <= i < |rest| ==> !Throws(rest[i]) by {
        forall i | 0 <= i < |rest| ensures !Throws(rest[i]) {
          assert rest[i] == items[i + 1];
        }
      }
      var next := Step(x, acc).value;
      match Candidate(x)
      case None =>
        assert next == acc;
        ScanMatchesReference(rest, acc);
      case Some(q) =>
        if q.source in SourcesOf(acc) {
          assert next == acc;
          ScanMatchesReference(rest, acc);
        } else {
          assert next == acc + [q];
          assert SourcesOf(next) == SourcesOf(acc) + {q.source};
          var tail := FirstPerSource(Candidates(rest), SourcesOf(next));
          assert Candidates(items) == [q] + Candidates(rest);
          assert FirstPerSource(Candidates(items), SourcesOf(acc)) == [q] + tail;
          assert acc + ([q] + tail) == next + tail;
          if |next| < Sources.ExpectedSources {
            ScanMatchesReference(rest, next);
          } else {
            assert Scan(items, acc) == Success(next);
            if |tail| > 0 {
              assert (next + tail)[..Sources.ExpectedSources] == next;
            } else {
              assert next + tail == next;
            }
          }
        }
    }
  }

  /**
   * When no item throws, the loop returns exactly the reference batch: the
   * first valid quote of each source, in provider order, at most three.
   */
  lemma FetchQuotesMatchesReference(items: seq<RawItem>)
    requires forall i :: 0 <= i < |items| ==> !Throws(items[i])
    ensures FetchQuotes(JsonArray(items)) == Success(Expected(items))
  {
    ScanMatchesReference(items, []);
    assert SourcesOf([]) == {};
    assert [] + FirstPerSource(Candidates(items), {}) == FirstPerSource(Candidates(items), {});
  }

  /** The reference never returns two quotes for one source. */
  lemma {:induction false} FirstPerSourceDistinct(qs: seq<Quote>, seen: set<string>)
    ensures DistinctSources(FirstPerSource(qs, seen))
    ensures SourcesOf(FirstPerSource(qs, seen)) !! seen
    decreases |qs|
  {
    if |qs| > 0 {
      FirstPerSourceDistinct(qs[1..], if qs[0].source in seen then seen else seen + {qs[0].source});
    }
  }

  // ---------------------------------------------------------------------
  // First valid occurrence wins.
  // ---------------------------------------------------------------------

  lemma {:induction false} ScanTakesEarliestValid(items: seq<RawItem>, acc: seq<Quote>, k: nat)
    requires WellFormedBatch(acc) && |acc| < Sources.ExpectedSources
    requires Scan(items, acc).Success?
    requires |acc| <= k < |Scan(items, acc).value|
    ensures exists i :: (0 <= i < |items|
      && Candidate(items[i]) == Some(Scan(items, acc).value[k])
      && Scan(items, acc).value[k].source !in SourcesOf(acc)
      && Scan(items, acc).value[k].source !in SourcesOf(Candidates(items[..i])))
    decreases |items|
  {
    var r := Scan(items, acc).value;
    var x := items[0];
    var rest := items[1..];
    var next := Step(x, acc).value;
    if |next| == |acc| {
      assert |next| < Sources.ExpectedSources;
      assert Scan(items, acc) == Scan(rest, acc);
      ScanTakesEarliestValid(rest, acc, k);
      var i' :| 0 <= i' < |rest|
        && Candidate(rest[i']) == Some(r[k])
        && r[k].source !in SourcesOf(acc)
        && r[k].source !in SourcesOf(Candidates(rest[..i']));
      CandidatesOfLongerPrefix(items, i');
      if Candidate(x).Some? {
        assert Candidate(x).value.source in SourcesOf(acc);
      }
    } else {
      var q := next[|acc|];
      assert next == acc + [q];
      assert Candidate(x) == Some(q);
      if k == |acc| {
        assert r[k] == q by {
          if |next| < Sources.ExpectedSources {
            assert next <= r;
          }
        }
        assert items[..0] == [];
      } else {
        assert |next| < Sources.ExpectedSources;
        ScanTakesEarliestValid(rest, next, k);
        var i' :| 0 <= i' < |rest|
          && Candidate(rest[i']) == Some(r[k])
          && r[k].source !in SourcesOf(next)
          && r[k].source !in SourcesOf(Candidates(rest[..i']));
        CandidatesOfLongerPrefix(items, i');
        assert q in next;
      }
    }
  }

  /** Shifting a witness found in items[1..] back to items. */
  lemma CandidatesOfLongerPrefix(items: seq<RawItem>, i: nat)
    requires i + 1 < |items|
    ensures items[1 + i] == items[1..][i]
    ensures Candidates(items[..i + 1]) == match Candidate(items[0])
                                        case Some(q) => [q] + Candidates(items[1..][..i])
                                        case None => Candidates(items[1..][..i])
  {
    assert items[..i + 1][1..] == items[1..][..i];
  }

  /**
   * Every accepted quote is the quote of some valid item, and no earlier
   * item is a valid item of the same source: the first VALID occurrence of
   * a source wins, whatever invalid occurrences come before it.
   */
  lemma FetchQuotesTakesEarliestValid(items: seq<RawItem>, k: nat)
    requires FetchQuotes(JsonArray(items)).Success?
    requires k < |FetchQuotes(JsonArray(items)).value|
    ensures exists i :: (0 <= i < |items|
      && Candidate(items[i]) == Some(FetchQuotes(JsonArray(items)).value[k])
      && FetchQuotes(JsonArray(items)).value[k].source !in SourcesOf(Candidates(items[..i])))
  {
    ScanTakesEarliestValid(items, [], k);
  }

  // ---------------------------------------------------------------------
  // The cap, rejected items and errors.
  // ---------------------------------------------------------------------

  /** Once three quotes are accepted the loop stops: later items, even ones that would throw, are never read. */
  lemma {:induction false} ScanStopsAtCap(items: seq<RawItem>, more: seq<RawItem>, acc: seq<Quote>)
    requires WellFormedBatch(acc) && |acc| < Sources.ExpectedSources
    requires Scan(items, acc).Success? && |Scan(items, acc).value| == Sources.ExpectedSources
    ensures Scan(items + more, acc) == Scan(items, acc)
    decreases |items|
  {
    assert (items + more)[0] == items[0];
    assert (items + more)[1..] == items[1..] + more;
    var next := Step(items[0], acc).value;
    if |next| < Sources.ExpectedSources {
      ScanStopsAtCap(items[1..], more, next);
    }
  }

  lemma FetchQuotesStopsAtCap(items: seq<RawItem>, more: seq<RawItem>)
    requires FetchQuotes(JsonArray(items)).Success?
    requires |FetchQuotes(JsonArray(items)).value| == Sources.ExpectedSources
    ensures FetchQuotes(JsonArray(items + more)) == FetchQuotes(JsonArray(items))
  {
    ScanStopsAtCap(items, more, []);
  }

  /**
   * An item that does not throw and is not accepted leaves no trace: in
   * particular an invalid first occurrence does not mark its source as used.
   */
  lemma RejectedItemLeavesNoTrace(x: RawItem, rest: seq<RawItem>, acc: seq<Quote>)
    requires WellFormedBatch(acc) && |acc| < Sources.ExpectedSources
    requires !Throws(x)
    requires Candidate(x).None? || Candidate(x).value.source in SourcesOf(acc)
    ensures Scan([x] + rest, acc) == Scan(rest, acc)
  {
    assert ([x] + rest)[1..] == rest;
  }

  /**
   * An item that throws before three quotes are accepted aborts the whole
   * fetch; one that comes after the third accepted quote is never read.
   */
  lemma FetchQuotesThrowsUnlessCapped(prefix: seq<RawItem>, bad: RawItem, rest: seq<RawItem>)
    requires forall i :: 0 <= i < |prefix| ==> !Throws(prefix[i])
    requires Throws(bad)
    ensures FetchQuotes(JsonArray(prefix + [bad] + rest))
         == if |Expected(prefix)| == Sources.ExpectedSources then Success(Expected(prefix))
            else Failure(ItemTypeError)
  {
    FetchQuotesMatchesReference(prefix);
    assert prefix + [bad] + rest == prefix + ([bad] + rest);
    if |Expected(prefix)| == Sources.ExpectedSources {
      FetchQuotesStopsAtCap(prefix, [bad] + rest);
    } else {
      ScanMatchesReference(prefix, []);
      ScanThroughPrefix(prefix, [bad] + rest, []);
      assert ([bad] + rest)[0] == bad;
    }
  }

  /** Running the loop over a prefix that does not fill the cap, then over the rest. */
  lemma {:induction false} ScanThroughPrefix(prefix: seq<RawItem>, rest: seq<RawItem>, acc: seq<Quote>)
    requires WellFormedBatch(acc) && |acc| < Sources.ExpectedSources
    requires Scan(prefix, acc).Success? && |Scan(prefix, acc).value| < Sources.ExpectedSources
    ensures Scan(prefix + rest, acc) == Scan(rest, Scan(prefix, acc).value)
    decreases |prefix|
  {
    if |prefix| == 0 {
      assert prefix + rest == rest;
    } else {
      assert (prefix + rest)[0] == prefix[0];
      assert (prefix + rest)[1..] == prefix[1..] + rest;
      ScanThroughPrefix(prefix[1..], rest, Step(prefix[0], acc).value);
    }
  }

  /** A source that only appears with a NaN price first still gets its later valid quote. */
  lemma InvalidFirstOccurrenceExample()
    ensures FetchQuotes(JsonArray([
              Item(Text("blue"), None, Some(1010.0)),
              Item(Text("BLUE"), Some(1000.0), Some(1010.0)),
              Item(Text("unknown_bank"), Some(5.0), Some(6.0)),
              Item(Text("oficial"), Some(-5.0), Some(900.0))]))
         == Success([Quote(Sources.DolarHoy, 1000.0, 1010.0)])
  {
    assert Sources.ToLower("blue") == "blue";
    assert Sources.ToLower("BLUE") == "blue";
    assert Sources.ToLower("unknown_bank") == "unknown_bank";
    assert Sources.ToLower("oficial") == "oficial";
    var items := [
      Item(Text("blue"), None, Some(1010.0)),
      Item(Text("BLUE"), Some(1000.0), Some(1010.0)),
      Item(Text("unknown_bank"), Some(5.0), Some(6.0)),
      Item(Text("oficial"), Some(-5.0), Some(900.0))];
    var q := Quote(Sources.DolarHoy, 1000.0, 1010.0);
    assert SourceOf(items[0]) == Success(Some(Sources.DolarHoy));
    assert SourceOf(items[1]) == Success(Some(Sources.DolarHoy));
    assert SourceOf(items[2]) == Success(None);
    assert SourcesOf([]) == {};
    assert Step(items[0], []) == Success([]);
    var none: seq<Quote> := [];
    assert Sources.DolarHoy !in SourcesOf(none);
    assert PricesValid(items[1]);
    assert none + [q] == [q];
    assert Step(items[1], none) == Success([q]);
    assert Step(items[2], [q]) == Success([q]);
    assert Step(items[3], [q]) == Success([q]);
    assert Scan(items[3..], [q]) == Success([q]);
    assert Scan(items[2..], [q]) == Success([q]);
    assert Scan(items[1..], []) == Success([q]);
  }
}

=== FILE: source_order.dfy ===
/**
 * Ascending order on source keys, as `orderBy: { source: 'asc' }` asks
 * for, and a sort of a table snapshot by that order. Strings compare
 * character by character; a proper prefix comes first.
 */
module SourceOrder {
  import opened Quotes

  /** a comes no later than b in ascending order. */
  predicate Precedes(a: string, b: string)
    decreases |a|
  {
    if |a| == 0 then true
    else if |b| == 0 then false
    else if a[0] != b[0] then a[0] < b[0]
    else Precedes(a[1..], b[1..])
  }

  lemma {:induction false} PrecedesTotal(a: string, b: string)
    ensures Precedes(a, b) || Precedes(b, a)
    decreases |a|
  {
    if |a| > 0 && |b| > 0 && a[0] == b[0] {
      PrecedesTotal(a[1..], b[1..]);
    }
  }

  lemma {:induction false} PrecedesAntisymmetric(a: string, b: string)
    requires Precedes(a, b) && Precedes(b, a)
    ensures a == b
    decreases |a|
  {
    if |a| > 0 && |b| > 0 {
      PrecedesAntisymmetric(a[1..], b[1..]);
      assert a == [a[0]] + a[1..] && b == [b[0]] + b[1..];
    }
  }

  lemma {:induction false} PrecedesTransitive(a: string, b: string, c: string)
    requires Precedes(a, b) && Precedes(b, c)
    ensures Precedes(a, c)
    decreases |a|
  {
    if |a| > 0 && |b| > 0 && |c| > 0 && a[0] == b[0] == c[0] {
      PrecedesTransitive(a[1..], b[1..], c[1..]);
    }
  }

  predicate SortedBySource(qs: seq<Quote>) {
    forall i, j :: 0 <= i < j < |qs| ==> Precedes(qs[i].source, qs[j].source)
  }

  function InsertBySource(q: Quote, qs: seq<Quote>): (r: seq<Quote>)
    requires SortedBySource(qs)
    ensures SortedBySource(r)
    ensures multiset(r) == multiset(qs) + multiset{q}
    decreases |qs|
  {
    if |qs| == 0 then [q]
    else if Precedes(q.source, qs[0].source) then
      forall y | y in qs ensures Precedes(q.source, y.source) {
        var j :| 0 <= j < |qs| && qs[j] == y;
        if j > 0 {
          PrecedesTransitive(q.source, qs[0].source, y.source);
        }
      }
      PrependKeepsSorted(q, qs);
      [q] + qs
    else
      var rest := InsertBySource(q, qs[1..]);
      PrecedesTotal(q.source, qs[0].source);
      assert qs == [qs[0]] + qs[1..];
      forall y | y in rest ensures Precedes(qs[0].source, y.source) {
        assert y in multiset(rest);
        if y != q {
          var j :| 0 <= j < |qs[1..]| && qs[1..][j] == y;
          assert qs[j + 1] == y;
        }
      }
      PrependKeepsSorted(qs[0], rest);
      [qs[0]] + rest
  }

  lemma PrependKeepsSorted(x: Quote, s: seq<Quote>)
    requires SortedBySource(s)
    requires forall y :: y in s ==> Precedes(x.source, y.source)
    ensures SortedBySource([x] + s)
  {
    var r := [x] + s;
    forall i, j | 0 <= i < j < |r|
      ensures Precedes(r[i].source, r[j].source)
    {
      if i == 0 {
        assert r[j] == s[j - 1];
        assert r[j] in s;
      } else {
        assert r[i] == s[i - 1] && r[j] == s[j - 1];
      }
    }
  }

  lemma {:induction false} PrecedesReflexive(a: string)
    ensures Precedes(a, a)
    decreases |a|
  {
    if |a| > 0 {
      PrecedesReflexive(a[1..]);
    }
  }

  /** The snapshot in ascending order of source. */
  function SortBySource(qs: seq<Quote>): (r: seq<Quote>)
    ensures SortedBySource(r)
    ensures multiset(r) == multiset(qs)
    decreases |qs|
  {
    if |qs| == 0 then []
    else
      assert qs == [qs[0]] + qs[1..];
      InsertBySource(qs[0], SortBySource(qs[1..]))
  }

  /**
   * With distinct sources there is only one ascending arrangement of a set
   * of quotes, so the listing does not depend on the order rows are read in.
   */
  lemma {:induction false} SortedArrangementUnique(a: seq<Quote>, b: seq<Quote>)
    requires SortedBySource(a) && SortedBySource(b)
    requires DistinctSources(a) && DistinctSources(b)
    requires forall q :: q in a <==> q in b
    ensures a == b
    decreases |a|
  {
    if |b| > 0 {
      assert b[0] in b;
    }
    if |a| > 0 {
      SameLeastElement(a, b);
      SameElementsAfterHead(a, b);
      SortedArrangementUnique(a[1..], b[1..]);
      assert a == [a[0]] + a[1..] && b == [b[0]] + b[1..];
    }
  }

  lemma SameLeastElement(a: seq<Quote>, b: seq<Quote>)
    requires SortedBySource(a) && SortedBySource(b)
    requires DistinctSources(a)
    requires forall q :: q in a <==> q in b
    requires |a| > 0
    ensures |b| > 0 && a[0] == b[0]
  {
    assert a[0] in a;
    var j :| 0 <= j < |b| && b[j] == a[0];
    assert b[0] in b;
    var i :| 0 <= i < |a| && a[i] == b[0];
    PrecedesReflexive(a[0].source);
    assert Precedes(a[0].source, b[0].source) by {
      if i > 0 { assert Precedes(a[0].source, a[i].source); }
    }
    assert Precedes(b[0].source, a[0].source) by {
      if j > 0 { assert Precedes(b[0].source, b[j].source); }
    }
    PrecedesAntisymmetric(a[0].source, b[0].source);
    assert i == 0;
  }

  lemma SameElementsAfterHead(a: seq<Quote>, b: seq<Quote>)
    requires DistinctSources(a) && DistinctSources(b)
    requires forall q :: q in a <==> q in b
    requires |a| > 0 && |b| > 0 && a[0] == b[0]
    ensures forall q :: q in a[1..] <==> q in b[1..]
  {
    forall q
      ensures q in a[1..] <==> q in b[1..]
    {
      if q in a[1..] {
        var k :| 1 <= k < |a| && a[k] == q;
        assert q in b;
        var m :| 0 <= m < |b| && b[m] == q;
        assert m != 0;
        assert b[1..][m - 1] == q;
      }
      if q in b[1..] {
        var k :| 1 <= k < |b| && b[k] == q;
        assert q in a;
        var m :| 0 <= m < |a| && a[m] == q;
        assert m != 0;
        assert a[1..][m - 1] == q;
      }
    }
  }

  /** Two positions holding the same quote count it twice. */
  lemma TwoIndicesCountTwice(s: seq<Quote>, i: nat, j: nat)
    requires i < j < |s| && s[i] == s[j]
    ensures multiset(s)[s[i]] >= 2
  {
    assert s == s[..j] + [s[j]] + s[j + 1..];
    assert s[i] in s[..j];
  }

  /** In a sequence with distinct sources each quote occurs once. */
  lemma DistinctCountsOnce(s: seq<Quote>, k: nat)
    requires DistinctSources(s)
    requires k < |s|
    ensures multiset(s)[s[k]] == 1
  {
    assert s == s[..k] + [s[k]] + s[k + 1..];
    assert s[k] !in s[..k];
    assert s[k] !in s[k + 1..];
  }
}

=== FILE: sources.dfy ===
/**
 * The two lookup tables that turn the provider's `casa` field into one of
 * the three canonical source URLs, and the case-folded lookup through them.
 */
module Sources {
  import opened Wrappers

  const Ambito := "https://www.ambito.com/contenidos/dolar.html"
  const DolarHoy := "https://www.dolarhoy.com"
  const Cronista := "https://www.cronista.com/MercadosOnline/moneda.html?id=ARSB"

  /** The canonical source keys; every stored quote is keyed by one of them. */
  const CanonicalSources: set<string> := {Ambito, DolarHoy, Cronista}

  /** The number of canonical sources, which is also the cap on one batch. */
  const ExpectedSources := 3

  /** The primary table, consulted first. */
  const SourceMapping: map<string, string> :=
    map["oficial" := Ambito, "blue" := DolarHoy, "bolsa" := Cronista]

  /** The alternative spellings, consulted when the primary table has no entry. */
  const AlternativeCasaNames: map<string, string> :=
    map["ambito" := Ambito, "dolarhoy" := DolarHoy, "cronista" := Cronista, "ccl" := Cronista]

  /** Every spelling either table accepts. */
  const KnownSpellings: set<string> := SourceMapping.Keys + AlternativeCasaNames.Keys

  /**
   * String.prototype.toLowerCase restricted to ASCII letters. The only other
   * character whose lower case is ASCII is the Kelvin sign (to 'k'), and no
   * spelling in either table contains a 'k'.
   */
  function LowerChar(c: char): char {
    if 'A' <= c <= 'Z' then (c as int + 32) as char else c
  }

  function ToLower(s: string): (r: string)
    ensures forall i :: 0 <= i < |r| ==> !('A' <= r[i] <= 'Z')
    ensures MatchesIgnoringCase(s, r)
    ensures |r| == |s|
    ensures forall i :: 0 <= i < |s| ==> r[i] == LowerChar(s[i])
  {
    seq(|s|, i requires 0 <= i < |s| => LowerChar(s[i]))
  }

  function UpperChar(c: char): char {
    if 'a' <= c <= 'z' then (c as int - 32) as char else c
  }

  /** s equals the lower-case word w up to the case of its letters. */
  predicate MatchesIgnoringCase(s: string, w: string) {
    |s| == |w| && forall i :: 0 <= i < |s| ==> s[i] == w[i] || s[i] == UpperChar(w[i])
  }

  /** The canonical URL for a truthy string casa, or None when neither table knows it. */
  function Resolve(casa: string): (r: Option<string>)
    ensures r.Some? <==> ToLower(casa) in KnownSpellings
    ensures r.Some? ==> r.value in CanonicalSources
  {
    var key := ToLower(casa);
    if key in SourceMapping then Some(SourceMapping[key])
    else if key in AlternativeCasaNames then Some(AlternativeCasaNames[key])
    else None
  }

  /** Two spellings of the same word in different letter case resolve alike. */
  lemma ResolveIgnoresCase(a: string, b: string)
    requires ToLower(a) == ToLower(b)
    ensures Resolve(a) == Resolve(b)
  {
  }

  /** A casa is recognised exactly when it is some known spelling up to letter case. */
  lemma ResolveRecognisesSpellings(casa: string)
    ensures Resolve(casa).Some? <==> exists w :: w in KnownSpellings && MatchesIgnoringCase(casa, w)
  {
    if Resolve(casa).Some? {
      var w := ToLower(casa);
      assert w in KnownSpellings;
      forall i | 0 <= i < |casa|
        ensures casa[i] == w[i] || casa[i] == UpperChar(w[i])
      {
        assert w[i] == LowerChar(casa[i]);
      }
      assert MatchesIgnoringCase(casa, w);
    } else {
      forall w | w in KnownSpellings
        ensures !MatchesIgnoringCase(casa, w)
      {
        if MatchesIgnoringCase(casa, w) {
          LowerOfMatchIsSpelling(casa, w);
          assert false;
        }
      }
    }
  }

  lemma LowerOfMatchIsSpelling(s: string, w: string)
    requires w in KnownSpellings
    requires MatchesIgnoringCase(s, w)
    ensures ToLower(s) == w
  {
    assert forall i :: 0 <= i < |w| ==> 'a' <= w[i] <= 'z';
    forall i | 0 <= i < |s|
      ensures ToLower(s)[i] == w[i]
    {
    }
  }

  /** The spellings that share a URL: bolsa, cronista and ccl all name the Cronista page. */
  lemma SpellingsPerSource()
    ensures Resolve("oficial") == Resolve("AMBITO") == Some(Ambito)
    ensures Resolve("Blue") == Resolve("dolarhoy") == Some(DolarHoy)
    ensures Resolve("bolsa") == Resolve("Cronista") == Resolve("CCL") == Some(Cronista)
    ensures Resolve("unknown_bank") == None
  {
    assert ToLower("oficial") == "oficial";
    assert ToLower("AMBITO") == "ambito";
    assert ToLower("Blue") == "blue";
    assert ToLower("dolarhoy") == "dolarhoy";
    assert ToLower("bolsa") == "bolsa";
    assert ToLower("Cronista") == "cronista";
    assert ToLower("CCL") == "ccl";
    assert ToLower("unknown_bank") == "unknown_bank";
  }

  // ---------------------------------------------------------------------
  // The lookup as written: a property read on a plain object literal.
  // ---------------------------------------------------------------------

  /** What `table[key]` yields on a JavaScript object literal. */
  datatype PropertyValue = Undefined | Own(url: string) | Inherited(name: string)

  /**
   * The properties of Object.prototype a lower-cased key can reach. The
   * other inherited names (hasOwnProperty, toString, valueOf, ...) contain
   * capital letters, so no output of ToLower equals them.
   */
  const ObjectPrototypeNames: set<string> := {"constructor", "__proto__"}

  function ReadProperty(table: map<string, string>, key: string): PropertyValue {
    if key in table then Own(table[key])
    else if key in ObjectPrototypeNames then Inherited(key)
    else Undefined
  }

  /** JavaScript truthiness of a property value: inherited members are functions or objects. */
  predicate Truthy(v: PropertyValue) {
    match v
    case Undefined => false
    case Own(url) => url != ""
    case Inherited(_) => true
  }

  /** The lookup as the source writes it, where a truthy inherited member counts as a hit. */
  function ResolveAsWritten(casa: string): (r: Option<PropertyValue>)
    ensures r.Some? <==> ToLower(casa) in KnownSpellings + ObjectPrototypeNames
    ensures r.Some? && r.value.Own? ==> r.value.url in CanonicalSources
    ensures r.Some? && !r.value.Own? ==> r.value == Inherited(ToLower(casa))
  {
    var key := ToLower(casa);
    var primary := ReadProperty(SourceMapping, key);
    if Truthy(primary) then Some(primary)
    else
      var alternative := ReadProperty(AlternativeCasaNames, key);
      if Truthy(alternative) then Some(alternative) else None
  }

  /** A casa spelled like an inherited member yields a function, not a canonical URL. */
  lemma InheritedNameSlipsThrough()
    ensures ResolveAsWritten("Constructor") == Some(Inherited("constructor"))
    ensures Resolve("Constructor") == None
  {
    assert ToLower("Constructor") == "constructor";
  }

  /** Away from inherited names, the lookup as written agrees with Resolve. */
  lemma ResolveAsWrittenAgrees(casa: string)
    requires ToLower(casa) !in ObjectPrototypeNames
    ensures ResolveAsWritten(casa) == (match Resolve(casa)
                                       case Some(url) => Some(Own(url))
                                       case None => None)
  {
  }
}

=== FILE: store.dfy ===
/**
 * The quote table and one run of updateQuotesInDatabase: fetch, then upsert
 * every fetched quote keyed by its source. Timestamps are not modelled.
 */
module Store {
  import opened Wrappers
  import opened Quotes
  import Scraper
  import Sources

  datatype Prices = Prices(buy: real, sell: real)

  /** The quote table, keyed by source. */
  type Table = map<string, Prices>

  function PricesOf(q: Quote): Prices {
    Prices(q.buyPrice, q.sellPrice)
  }

  /** The arguments of one upsert call: the key to look up, the fields to update, the record to create. */
  datatype UpsertArgs = UpsertArgs(where: string, update: Prices, create: Quote)

  /** An upsert: overwrite the row found under `where`, or insert the `create` record. */
  function Upsert(table: Table, args: UpsertArgs): Table {
    if args.where in table then table[args.where := args.update]
    else table[args.create.source := PricesOf(args.create)]
  }

  /** The upsert the job issues for one quote. */
  function UpsertArgsFor(q: Quote): UpsertArgs {
    UpsertArgs(q.source, PricesOf(q), q)
  }

  /** Whichever branch runs, the quote's source ends up holding exactly its prices. */
  function UpsertQuote(table: Table, q: Quote): (r: Table)
    ensures r == table[q.source := PricesOf(q)]
  {
    Upsert(table, UpsertArgsFor(q))
  }

  /** The upserts of a batch, applied one after the other. */
  function UpsertAll(table: Table, qs: seq<Quote>): (r: Table)
    ensures r.Keys == table.Keys + SourcesOf(qs)
    ensures forall k :: k in table && k !in SourcesOf(qs) ==> r[k] == table[k]
    ensures forall k :: k in SourcesOf(qs) ==> exists q :: q in qs && q.source == k && r[k] == PricesOf(q)
    decreases |qs|
  {
    if |qs| == 0 then table
    else
      var r := UpsertAll(UpsertQuote(table, qs[0]), qs[1..]);
      assert SourcesOf(qs) == {qs[0].source} + SourcesOf(qs[1..]) by {
        assert forall q :: q in qs <==> q == qs[0] || q in qs[1..];
      }
      assert forall q :: q in qs[1..] ==> q in qs;
      r
  }

  /**
   * One run of updateQuotesInDatabase on the outcome of fetchQuotes: an
   * error is caught and logged, an empty batch returns early, otherwise
   * every quote is upserted.
   */
  function Cycle(table: Table, fetched: Result<seq<Quote>, Scraper.FetchError>): (r: Table)
    ensures fetched.Failure? || fetched.value == [] ==> r == table
    ensures fetched.Success? ==> r.Keys == table.Keys + SourcesOf(fetched.value)
    ensures fetched.Success? ==> forall k :: k in table && k !in SourcesOf(fetched.value) ==> r[k] == table[k]
    ensures fetched.Success? && DistinctSources(fetched.value) ==>
      forall q :: q in fetched.value ==> q.source in r && r[q.source] == PricesOf(q)
  {
    match fetched
    case Failure(_) => table
    case Success(qs) =>
      if |qs| == 0 then table
      else
        var r := UpsertAll(table, qs);
        assert DistinctSources(qs) ==> forall q :: q in qs ==> r[q.source] == PricesOf(q) by {
          if DistinctSources(qs) {
            forall q | q in qs
              ensures r[q.source] == PricesOf(q)
            {
              var q' :| q' in qs && q'.source == q.source && r[q.source] == PricesOf(q');
              SameSourceSameQuote(qs, q, q');
            }
          }
        }
        r
  }

  /** One full run: fetch from the provider's response, then write. */
  function RunCycle(table: Table, response: Scraper.Response): (r: Table)
    ensures response.RequestFailed? ==> r == table
    ensures Scraper.Fetch(response).Failure? ==> r == table
    ensures table.Keys <= r.Keys <= table.Keys + Sources.CanonicalSources
    ensures forall k :: k in table && k !in Sources.CanonicalSources ==> r[k] == table[k]
    ensures forall k :: k in table && (Scraper.Fetch(response).Failure? || k !in SourcesOf(Scraper.Fetch(response).value)) ==>
      r[k] == table[k]
    ensures Scraper.Fetch(response).Success? ==>
      forall q :: q in Scraper.Fetch(response).value ==> q.source in r && r[q.source] == PricesOf(q)
  {
    var fetched := Scraper.Fetch(response);
    var r := Cycle(table, fetched);
    assert r.Keys <= table.Keys + Sources.CanonicalSources by {
      if fetched.Success? {
        assert SourcesOf(fetched.value) <= Sources.CanonicalSources;
      }
    }
    assert fetched.Success? ==> forall q :: q in fetched.value ==> q.source in SourcesOf(fetched.value);
    r
  }

  /** The table invariant: every stored price is positive. */
  predicate PositiveTable(table: Table) {
    forall k :: k in table ==> table[k].buy > 0.0 && table[k].sell > 0.0
  }

  // ---------------------------------------------------------------------
  // Properties of one cycle.
  // ---------------------------------------------------------------------

  lemma SameSourceSameQuote(qs: seq<Quote>, a: Quote, b: Quote)
    requires DistinctSources(qs)
    requires a in qs && b in qs && a.source == b.source
    ensures a == b
  {
    var i :| 0 <= i < |qs| && qs[i] == a;
    var j :| 0 <= j < |qs| && qs[j] == b;
  }

  /** Stored prices stay positive: invalid prices are never written. */
  lemma RunCyclePreservesPositiveTable(table: Table, response: Scraper.Response)
    requires PositiveTable(table)
    ensures PositiveTable(RunCycle(table, response))
  {
    var r := RunCycle(table, response);
    forall k | k in r
      ensures r[k].buy > 0.0 && r[k].sell > 0.0
    {
      var fetched := Scraper.Fetch(response);
      if fetched.Success? && |fetched.value| > 0 && k in SourcesOf(fetched.value) {
        var q :| q in fetched.value && q.source == k && r[k] == PricesOf(q);
        assert HasPositivePrices(q);
      }
    }
  }

  // ---------------------------------------------------------------------
  // Idempotence and order independence of the upserts.
  // ---------------------------------------------------------------------

  /** Upserting a batch overrides the table with the batch's own last-writer-wins map. */
  lemma {:induction false} UpsertAllIsOverride(table: Table, base: Table, qs: seq<Quote>)
    ensures UpsertAll(table + base, qs) == table + UpsertAll(base, qs)
    decreases |qs|
  {
    if |qs| > 0 {
      var q := qs[0];
      OverrideThenUpdate(table, base, q.source, PricesOf(q));
      UpsertAllIsOverride(table, base[q.source := PricesOf(q)], qs[1..]);
    }
  }

  /** Updating an override writes into its right-hand side. */
  lemma OverrideThenUpdate(a: Table, b: Table, k: string, v: Prices)
    ensures (a + b)[k := v] == a + b[k := v]
  {
  }

  /** Writing the same batch twice gives the table of writing it once. */
  lemma UpsertAllIdempotent(table: Table, qs: seq<Quote>)
    ensures UpsertAll(UpsertAll(table, qs), qs) == UpsertAll(table, qs)
  {
    var batch := UpsertAll(map[], qs);
    UpsertAllFromEmpty(table, qs);
    UpsertAllFromEmpty(table + batch, qs);
    OverrideTwice(table, batch);
  }

  lemma UpsertAllFromEmpty(table: Table, qs: seq<Quote>)
    ensures UpsertAll(table, qs) == table + UpsertAll(map[], qs)
  {
    var empty: Table := map[];
    assert table + empty == table;
    UpsertAllIsOverride(table, empty, qs);
  }

  lemma OverrideTwice(a: Table, b: Table)
    ensures (a + b) + b == a + b
  {
  }

  /** Two runs on the same provider response leave the table as one run does. */
  lemma RunCycleIdempotent(table: Table, response: Scraper.Response)
    ensures RunCycle(RunCycle(table, response), response) == RunCycle(table, response)
  {
    var fetched := Scraper.Fetch(response);
    if fetched.Success? && |fetched.value| > 0 {
      UpsertAllIdempotent(table, fetched.value);
    }
  }

  /**
   * With distinct sources the order of the upserts does not matter, so the
   * concurrent writes of one cycle have a single possible outcome.
   */
  lemma UpsertAllOrderIndependent(table: Table, qs: seq<Quote>, ps: seq<Quote>)
    requires DistinctSources(qs)
    requires multiset(ps) == multiset(qs)
    ensures UpsertAll(table, ps) == UpsertAll(table, qs)
  {
    forall q
      ensures q in ps <==> q in qs
    {
      assert q in ps <==> q in multiset(ps);
      assert q in qs <==> q in multiset(qs);
    }
    UpsertAllDependsOnElementsOnly(table, qs, ps);
  }

  lemma UpsertAllDependsOnElementsOnly(table: Table, qs: seq<Quote>, ps: seq<Quote>)
    requires DistinctSources(qs)
    requires forall q :: q in ps <==> q in qs
    ensures UpsertAll(table, ps) == UpsertAll(table, qs)
  {
    var a := UpsertAll(table, ps);
    var b := UpsertAll(table, qs);
    assert a.Keys == b.Keys by {
      SameElementsSameSources(ps, qs);
    }
    assert forall k :: k in a.Keys ==> a[k] == b[k] by {
      forall k | k in a.Keys
        ensures a[k] == b[k]
      {
        if k in SourcesOf(qs) {
          SameBatchEntry(table, qs, ps, k);
        } else {
          SameElementsSameSources(ps, qs);
        }
      }
    }
    SameKeysSameValues(a, b);
  }

  lemma SameKeysSameValues(a: Table, b: Table)
    requires a.Keys == b.Keys
    requires forall k :: k in a.Keys ==> a[k] == b[k]
    ensures a == b
  {
  }

  /** A batch source holds the same prices whichever arrangement of the batch was written. */
  lemma SameBatchEntry(table: Table, qs: seq<Quote>, ps: seq<Quote>, k: string)
    requires DistinctSources(qs)
    requires forall q :: q in ps <==> q in qs
    requires k in SourcesOf(qs)
    ensures k in UpsertAll(table, ps) && UpsertAll(table, ps)[k] == UpsertAll(table, qs)[k]
  {
    SameElementsSameSources(ps, qs);
    var p :| p in ps && p.source == k && UpsertAll(table, ps)[k] == PricesOf(p);
    var q :| q in qs && q.source == k && UpsertAll(table, qs)[k] == PricesOf(q);
    SameSourceSameQuote(qs, p, q);
  }

  lemma SameElementsSameSources(ps: seq<Quote>, qs: seq<Quote>)
    requires forall q :: q in ps <==> q in qs
    ensures SourcesOf(ps) == SourcesOf(qs)
  {
  }
}

=== FILE: wrappers.dfy ===
/** Optional values and success/failure outcomes used throughout the model. */
module Wrappers {

  /** A value that may be absent: a missing JSON field, or NaN after parsing a price. */
  datatype Option<+T> = None | Some(value: T)

  /** The outcome of an operation that either produces a value or throws an error. */
  datatype Result<+R, +E> = Success(value: R) | Failure(error: E)
}
